=== FILE: README.md ===
# Offline novel manager: store and selection state machine

The application keeps a list of novels, each owning an ordered list of
chapters, and two selection indices: the selected novel and the selected
chapter (`null` when nothing is selected). Every user action changes that
state synchronously and then re-renders. This project models the state and
its transitions as pure Dafny functions and proves how each action moves the
data and the selection. It also models the label helpers the views use and
the guard of the read-only chapter view.

Modules:

- `Wrappers`: `Option`, which stands in for JavaScript's `null`.
- `Text`: the code points ECMAScript's `String.prototype.trim` strips, `Trim`
  itself, and the decimal rendering of a number concatenated into a label.
- `Store`: `Chapter`, `Novel`, `State` and the default novel name. It also holds `RemoveAt` (the
  model of `splice(i, 1)`) and the invariant `Valid`, which says a set index
  always names an existing novel or chapter.
- `Actions`: one transition per user action: select a novel, select a
  chapter, back, delete a novel, delete a chapter, save a chapter, new novel.
  It also holds the laws linking them, and runs of actions from start-up.
- `Views`: novel names with their fallbacks, the chapter number text, the
  heading, the number line, the delete label, the confirmation prompts, the
  chapter-count subtitle, the content snippet, and the read-only view with
  its guard.
- `Scenarios`: concrete sessions from start-up.

Browser dialogs become inputs and outputs:

- `confirm()` is a `confirmed: bool` parameter.
- `prompt()` is an `Option<string>` answer; `None` means the prompt was
  cancelled.
- The `alert()` of an empty chapter entry, and the "Novel deleted." notice,
  come back as a `Notice` beside the new state (`Actions.Step`).

Three transitions have preconditions where the source would throw a
`TypeError`; they are listed under "## Left out". `Actions.Enabled` states
which controls can be on screen in a given state on the wide layout. There
the add-chapter form (script.js:226-297) is shown under a selected novel
while no chapter is selected: after selecting a novel, after back, after a
chapter deletion and after a new novel (script.js:134, 179, 378, 405). On the
narrow layout the chapter cards (script.js:187-224) carry no form, and the
form appears only right after a new novel (script.js:405). So on that layout
`Actions.Enabled` allows more than is on screen, and the property below
covers it all the same. The predicate is an assumption about the user
interface, read off the rendering code, and it is not proved. What is
proved, by `Actions.RunKeepsValid`, is the following. If every action in a
run is enabled when its turn comes, every state along the run is valid. In a
valid state the preconditions of the enabled action hold, as the contract of
`Actions.Enabled` states.

The new-novel handler trims the prompt's answer before it falls back to
"Untitled Novel" (script.js:396).

## Model

| member | source | states |
|---|---|---|
| Text.Trim | script.js:298-300 | the result is the slice of the input left after only white space is cut from both ends; it neither starts nor ends with white space; it is empty exactly when the input is all white space |
| Text.TrimIdempotent | script.js:298-300 | trimming an already trimmed field changes nothing |
| Text.TrimUnpadded | script.js:396 | a string with no white space at either end is left unchanged by trim |
| Text.Decimal | script.js:112-113 | a number concatenated into a label is written as one or more decimal digits, with no leading zero unless the number is 0 |
| Text.DecimalRoundTrip | script.js:112-113 | reading back the digits of a rendered number gives the number |
| Text.DecimalInjective | script.js:55-57 | different numbers render as different digit strings |
| Store.RemoveAt | script.js:146 | splice(i, 1) shortens the list by one; elements before i keep their positions, later ones move down by one; only the element at i is lost |
| Store.SelectedNovel | script.js:166 | the selected novel exists exactly when its index is set and in range, and it is the novel at the selected index |
| Store.SelectedChapter | script.js:166-167 | the selected chapter is the chapter at the selected chapter index of the selected novel; in a valid state it exists exactly when a chapter index is set |
| Actions.SelectNovel | script.js:129-135 | sets the novel index, always clears the chapter index, leaves the novels alone, and gives a valid state for an index in range |
| Actions.SelectChapter | script.js:137-141 | sets only the chapter index; it keeps validity for a chapter of the selected novel |
| Actions.Back | script.js:375-379 | clears only the chapter index; novels and novel index are unchanged; validity is kept |
| Actions.DeleteNovel | script.js:143-160 | unconfirmed: nothing changes. Confirmed: novel i is removed in order. Selected == i clears both indices with the deletion notice; selected > i moves to s-1 and keeps the chapter; selected < i or none leaves the selection. Validity is kept |
| Actions.DeleteChapter | script.js:163-181 | no selection, or unconfirmed: nothing changes. Confirmed: exactly the selected chapter leaves the selected novel; other novels, its name and the novel index are unchanged; the chapter index is cleared. Validity is kept |
| Actions.NewNovelName | script.js:396 | a new novel's name is never empty: it is the trimmed answer, or "Untitled Novel" when the answer is all white space |
| Actions.AddChapter | script.js:297-316 | rejected with the alert exactly when all three fields are white space, and then the state is unchanged. Otherwise there is no notice: the trimmed chapter is appended to the selected novel only, and the chapter index becomes the new last position. Validity is kept |
| Actions.AddNovel | script.js:392-406 | a cancelled prompt changes nothing; otherwise a novel with no chapters is appended and selected (index length-1) and the chapter index is cleared |
| Actions.DeleteNovelKeepsSelection | script.js:149-155 | deleting any novel but the selected one leaves the selection on the same novel and the same chapter |
| Actions.DeleteSelectedNovelClearsSelection | script.js:149-151 | deleting the selected novel leaves no novel and no chapter selected |
| Actions.AddNovelThenDelete | script.js:392-406 | adding a novel and then deleting it restores the novel list, clears the selection and raises the deletion notice |
| Actions.AddChapterThenDelete | script.js:307-313 | saving a chapter and then deleting it restores every novel, keeps the novel selected and clears the chapter selection |
| Actions.BackLaws | script.js:375-379 | back is idempotent; back after selecting a chapter equals back; back after selecting a novel changes nothing |
| Actions.Enabled | script.js:29-390 | the controls that can be on screen on the wide layout: a row for every novel and for every chapter of the selected novel (lines 41-74, 104-126); the add-chapter form under a selected novel while no chapter is selected (226-297, shown at 134, 179, 378, 405); back and delete-chapter only in the read-only view of an existing chapter (370-385). An enabled delete-novel, delete-chapter, save or chapter click meets the precondition of its transition |
| Actions.ApplyKeepsValid | script.js:129-181 | every action whose control is on screen keeps every set index in range |
| Actions.RunKeepsValid | script.js:4-6 | every state reached by a run of on-screen actions from a valid state is valid |
| Actions.ReachableIsValid | script.js:4-6 | every state reachable from start-up (no novels, nothing selected) is valid |
| Views.NovelListName | script.js:51 | the novel list shows the name, or exactly "Untitled Novel" when the name is empty |
| Views.NovelShortName | script.js:145 | prompts and headers show the name, or exactly "Untitled" when the name is empty |
| Views.ChapterNumberText | script.js:113 | the displayed number is the chapter's own number when it has one; otherwise it is the canonical decimal of the 1-based position (no leading zero), which reads back as that position |
| Views.NumberLine | script.js:349-351 | the read-only number line is "Chapter " followed by the chapter's own number, or, when it has none, by the canonical decimal of its 1-based position (no leading zero) |
| Views.HeadingExtendsNumberLine | script.js:111-114 | the list and card heading begins with the number line; it equals the number line exactly when the title is empty, and otherwise continues with ": " and the title |
| Views.DeleteLabelEndsHeading | script.js:169-171 | the label in the delete-chapter confirmation is the title when there is one, else the number line; either way it is non-empty and is the tail of the chapter's heading |
| Views.ConfirmPrompt | script.js:145 | a confirmation quotes its subject between `Delete "` and `"?` |
| Views.DeleteNovelPrompt | script.js:144-145 | the novel confirmation is `Delete "` + the novel's name, or "Untitled" when it has none, + `"?` |
| Views.DeleteChapterPrompt | script.js:163-173 | a chapter confirmation is shown exactly when both indices are set. It is `Delete "` + the delete label + `"?`: the title when there is one, else "Chapter " and the number or position |
| Views.SubtitleReadsBack | script.js:55-57 | the novel's subtitle starts with digits that read back as its chapter count; it ends in the plural "s" exactly when the count is not 1 |
| Views.CountLabelInjective | script.js:55-57 | different chapter counts never give the same subtitle |
| Views.Snippet | script.js:118-119 | a preview is exactly the first min(width, length) characters of the content plus an ellipsis, or "No content" when the content is empty |
| Views.SnippetSeesOnlyPrefix | script.js:118-119 | only the first width characters of the content reach the preview; anything after them never changes it |
| Views.ListPreview | script.js:118-119 | the chapter-list preview is the first min(40, length) characters of the content and an ellipsis, or "No content" |
| Views.CardPreview | script.js:215-216 | the narrow-layout card preview is the first min(50, length) characters of the content and an ellipsis, or "No content" |
| Views.CardPreviewExtendsListPreview | script.js:118 | a card shows at least as much of the content as the list does, and the two previews agree where they overlap |
| Views.ReadOnlyView | script.js:325-365 | the view is shown exactly when both indices are set and name an existing chapter (otherwise nothing happens). It shows the layout-dependent header, the number line, the title only when non-empty, and the content, or "[No content]" when it is empty |
| Views.ValidSelectionIsShown | script.js:326-333 | in a valid state the read-only guard passes exactly when a chapter is selected |
| Views.SavedChapterIsShown | script.js:313-315 | after a save the read-only view shows the trimmed chapter. Its number is the trimmed typed number, or the new 1-based position when none was typed. Its title is the trimmed title, shown only when there is one. Its body is the trimmed content, or "[No content]" when the content was blank |
| Views.LeavingReadOnlyView | script.js:375-379 | after back, or after a confirmed chapter deletion, the read-only view no longer shows |
| Scenarios.SaveIntoEmptyNovel | script.js:297-316 | saving an entry that is not blank into a lone novel without chapters gives that novel exactly the trimmed chapter, selects it, and raises no alert |
| Scenarios.AlphaChapterLabels | script.js:111-114 | chapter "1" titled "Start" is headed "Chapter 1: Start" |
| Scenarios.AlphaView | script.js:335-363 | the read-only view of that chapter in novel "Alpha" shows "Novel: Alpha", "Chapter 1", "Start" and "Hello" |
| Scenarios.AlphaSession | script.js:297-316 | new novel "Alpha", then saving "1"/"Start"/"Hello", is accepted and shows that chapter |
| Scenarios.BetaSession | script.js:392-406 | new novel "Beta" is selected, has no chapters and is subtitled "0 chapters" |
| Scenarios.DeleteOnlyNovelSession | script.js:143-160 | deleting the only novel gives back the empty start-up state, with the deletion notice |
| Scenarios.BlankChapterRefused | script.js:298-305 | an entry of blank and white-space fields is refused with the alert, in any state |

## Left out

- Persistence (script.js:1, 8-20): `localStorage` and `JSON.parse`/`JSON.stringify` are browser I/O and library code. The serialisation round trip depends on them.
- DOM construction, `innerHTML`/`textContent` writes, CSS and event wiring (script.js:22-127, 183-390, apart from the labels and the read-only view modelled above): these are presentation. The add-chapter form's cancel button (script.js:318-322) only clears input fields.
- The narrow-layout flag (script.js:2) chooses which renderer runs and never touches the state. It appears only as the `narrow` parameter of the read-only view's header.
- Stored data missing a field: the model always has a `chapters` list and string fields, with "" for an absent string. So `!novel.chapters` (script.js:55, 95, 308) never applies.
- Actions.DeleteNovel: requires an index in range. The source reads `data.novels[index].name` first (script.js:144-145) and throws a `TypeError` for any other index, so that case has no defined outcome to model.
- Actions.DeleteChapter: requires that a selection with both indices set is in range. Otherwise the source throws at script.js:166-170. The early return with no selection (script.js:164) is modelled.
- Actions.AddChapter: requires a selected novel once the entry is not blank. With no novel selected the source throws at script.js:307-308. The blank-entry rejection, which comes first, is modelled in every state.
- Views.Snippet, Views.ListPreview, Views.CardPreview: count Unicode scalar values, where JavaScript's `slice` counts UTF-16 code units. The two differ for characters outside the Basic Multilingual Plane.
- Text.Decimal: written for non-negative integers of any size. JavaScript numbers are doubles, but chapter positions stay far below 2^53, so the difference never shows.
- Views.NovelSubtitle, Views.SubtitleReadsBack: describe a fresh render of the novel list. The source re-renders that list only at start-up and when a novel is selected, deleted or added (script.js:409, 132, 157, 403). After a chapter save (script.js:310-315) or a chapter deletion (script.js:174-179) the list keeps showing the count it had before, until the next such re-render. Which count is currently painted is display state, which the model does not keep.

=== FILE: actions.dfy ===
/** One pure transition per user action of the view controller. Browser
    dialogs become inputs: `confirm()` is the `confirmed` flag, `prompt()` is an
    `Option<string>` answer (`None` when cancelled), and the `alert()` or
    inline notice an action raises is returned beside the new state. */
module Actions {
  import opened Wrappers
  import opened Text
  import opened Store

  /** A message an action shows the user instead of, or besides, its change. */
  datatype Notice =
    | NovelDeleted        // "Novel deleted." written into the main body
    | MissingChapterInfo  // alert "Please enter chapter information"

  datatype Step = Step(state: State, notice: Option<Notice>)

  /** Clicking a novel in the list selects it and drops any chapter selection. */
  function SelectNovel(s: State, index: nat): (r: State)
    ensures r.novels == s.novels
    ensures r.selectedNovel == Some(index) && r.selectedChapter == None
    ensures index < |s.novels| ==> Valid(r)
  {
    s.(selectedNovel := Some(index), selectedChapter := None)
  }

  /** Clicking a chapter of the selected novel selects it. */
  function SelectChapter(s: State, index: nat): (r: State)
    ensures r.novels == s.novels && r.selectedNovel == s.selectedNovel
    ensures r.selectedChapter == Some(index)
    ensures (Valid(s) && s.selectedNovel.Some?
             && index < |s.novels[s.selectedNovel.value].chapters|) ==> Valid(r)
  {
    s.(selectedChapter := Some(index))
  }

  /** The read-only view's back button clears only the chapter selection. */
  function Back(s: State): (r: State)
    ensures r.novels == s.novels && r.selectedNovel == s.selectedNovel
    ensures r.selectedChapter == None
    ensures Valid(s) ==> Valid(r)
  {
    s.(selectedChapter := None)
  }

  /** Deleting novel `index` once the user confirms: the novel is spliced out and
      the selection is moved so that it keeps pointing at the same novel, or is
      cleared (with a notice) when the selected novel itself went. In JavaScript
      `null > index` is false, so with no selection nothing moves. */
  function DeleteNovel(s: State, index: nat, confirmed: bool): (r: Step)
    requires index < |s.novels|
    ensures !confirmed ==> r == Step(s, None)
    ensures confirmed ==>
      && |r.state.novels| == |s.novels| - 1
      && (forall j :: 0 <= j < index ==> r.state.novels[j] == s.novels[j])
      && (forall j :: index <= j < |r.state.novels| ==> r.state.novels[j] == s.novels[j + 1])
    ensures confirmed ==> (r.notice == Some(NovelDeleted) <==> s.selectedNovel == Some(index))
    ensures confirmed ==> r.notice != Some(MissingChapterInfo)
    ensures confirmed && s.selectedNovel == Some(index) ==>
      r.state.selectedNovel == None && r.state.selectedChapter == None
    ensures confirmed && s.selectedNovel.Some? && s.selectedNovel.value > index ==>
      && r.state.selectedNovel == Some(s.selectedNovel.value - 1)
      && r.state.selectedChapter == s.selectedChapter
    ensures confirmed && (s.selectedNovel.None? || s.selectedNovel.value < index) ==>
      r.state.selectedNovel == s.selectedNovel && r.state.selectedChapter == s.selectedChapter
    ensures Valid(s) ==> Valid(r.state)
  {
    if !confirmed then Step(s, None)
    else
      var novels := RemoveAt(s.novels, index);
      if s.selectedNovel == Some(index) then
        Step(State(novels, None, None), Some(NovelDeleted))
      else if s.selectedNovel.Some? && s.selectedNovel.value > index then
        Step(s.(novels := novels, selectedNovel := Some(s.selectedNovel.value - 1)), None)
      else
        Step(s.(novels := novels), None)
  }

  /** Deleting the selected chapter once the user confirms. Without both
      selections the action returns before asking. */
  function DeleteChapter(s: State, confirmed: bool): (r: State)
    requires SelectionInRange(s)
    ensures s.selectedNovel.None? || s.selectedChapter.None? || !confirmed ==> r == s
    ensures confirmed && s.selectedNovel.Some? && s.selectedChapter.Some? ==>
      var k, c := s.selectedNovel.value, s.selectedChapter.value;
      && |r.novels| == |s.novels|
      && (forall j :: 0 <= j < |s.novels| && j != k ==> r.novels[j] == s.novels[j])
      && r.novels[k].name == s.novels[k].name
      && |r.novels[k].chapters| == |s.novels[k].chapters| - 1
      && (forall j :: 0 <= j < c ==> r.novels[k].chapters[j] == s.novels[k].chapters[j])
      && (forall j :: c <= j < |r.novels[k].chapters| ==>
            r.novels[k].chapters[j] == s.novels[k].chapters[j + 1])
      && r.selectedNovel == s.selectedNovel
      && r.selectedChapter == None
    ensures Valid(s) ==> Valid(r)
  {
    if s.selectedNovel.None? || s.selectedChapter.None? || !confirmed then s
    else
      var k, c := s.selectedNovel.value, s.selectedChapter.value;
      var novel := s.novels[k];
      var novel' := novel.(chapters := RemoveAt(novel.chapters, c));
      State(s.novels[k := novel'], s.selectedNovel, None)
  }

  /** The three form fields are all blank once trimmed. */
  predicate BlankEntry(number: string, title: string, content: string) {
    Trim(number) == [] && Trim(title) == [] && Trim(content) == []
  }

  /** The add-chapter form's save button. The three fields are trimmed; if all
      are empty the user is alerted and nothing changes, otherwise the chapter is
      appended to the selected novel and becomes the selected chapter. The
      handler reads the selected novel only after the blank check, so a blank
      entry is rejected even with no novel selected. */
  function AddChapter(s: State, number: string, title: string, content: string): (r: Step)
    requires BlankEntry(number, title, content) || NovelSelected(s)
    ensures r.notice == Some(MissingChapterInfo) <==>
      AllSpace(number) && AllSpace(title) && AllSpace(content)
    ensures !(AllSpace(number) && AllSpace(title) && AllSpace(content)) ==> r.notice.None?
    ensures r.notice.Some? ==> r.state == s
    ensures r.notice.None? ==>
      var k := s.selectedNovel.value;
      && |r.state.novels| == |s.novels|
      && (forall j :: 0 <= j < |s.novels| && j != k ==> r.state.novels[j] == s.novels[j])
      && r.state.novels[k].name == s.novels[k].name
      && r.state.novels[k].chapters ==
           s.novels[k].chapters + [Chapter(Trim(number), Trim(title), Trim(content))]
      && r.state.selectedNovel == s.selectedNovel
      && r.state.selectedChapter == Some(|r.state.novels[k].chapters| - 1)
    ensures Valid(s) ==> Valid(r.state)
  {
    var number', title', content' := Trim(number), Trim(title), Trim(content);
    if number' == [] && title' == [] && content' == [] then
      Step(s, Some(MissingChapterInfo))
    else
      var k := s.selectedNovel.value;
      var novel := s.novels[k];
      var novel' := novel.(chapters := novel.chapters + [Chapter(number', title', content')]);
      Step(State(s.novels[k := novel'], s.selectedNovel, Some(|novel.chapters|)), None)
  }

  /** The name a new novel gets from the prompt's answer. */
  function NewNovelName(answer: string): (r: string)
    ensures r != []
    ensures AllSpace(answer) ==> r == DefaultNovelName
    ensures !AllSpace(answer) ==> r == Trim(answer)
  {
    var name := Trim(answer);
    if name == [] then DefaultNovelName else name
  }

  /** The "new novel" button: a cancelled prompt changes nothing; otherwise a
      novel without chapters is appended, selected, and the chapter selection
      is cleared. */
  function AddNovel(s: State, answer: Option<string>): (r: State)
    ensures answer.None? ==> r == s
    ensures answer.Some? ==>
      && r.novels == s.novels + [Novel(NewNovelName(answer.value), [])]
      && r.selectedNovel == Some(|s.novels|)
      && r.selectedChapter == None
      && Valid(r)
    ensures Valid(s) ==> Valid(r)
  {
    match answer
    case None => s
    case Some(text) =>
      var novels := s.novels + [Novel(NewNovelName(text), [])];
      State(novels, Some(|novels| - 1), None)
  }

  // ---------------------------------------------------------------------------
  // Laws relating the actions to each other and to the selection they keep.

  /** Deleting a novel other than the selected one leaves the selection on the
      same novel and the same chapter. */
  lemma DeleteNovelKeepsSelection(s: State, index: nat)
    requires Valid(s) && index < |s.novels|
    requires s.selectedNovel.Some? && s.selectedNovel.value != index
    ensures var r := DeleteNovel(s, index, true).state;
      SelectedNovel(r) == SelectedNovel(s) && SelectedChapter(r) == SelectedChapter(s)
  {
  }

  /** Deleting the selected novel leaves nothing selected. */
  lemma DeleteSelectedNovelClearsSelection(s: State)
    requires NovelSelected(s)
    ensures var r := DeleteNovel(s, s.selectedNovel.value, true).state;
      SelectedNovel(r) == None && SelectedChapter(r) == None
  {
  }

  /** Adding a novel and deleting it again restores the list and clears the
      selection, as deleting the selected novel does. */
  lemma AddNovelThenDelete(s: State, name: string)
    ensures var t := AddNovel(s, Some(name));
      var r := DeleteNovel(t, |t.novels| - 1, true);
      r.state == State(s.novels, None, None) && r.notice == Some(NovelDeleted)
  {
    var t := AddNovel(s, Some(name));
    assert RemoveAt(t.novels, |s.novels|) == s.novels;
  }

  /** Saving a chapter and deleting it at once restores every novel and leaves
      the novel selected with no chapter selected. */
  lemma AddChapterThenDelete(s: State, number: string, title: string, content: string)
    requires NovelSelected(s) && !BlankEntry(number, title, content)
    ensures var t := AddChapter(s, number, title, content).state;
      DeleteChapter(t, true) == Back(s)
  {
    var t := AddChapter(s, number, title, content).state;
    var k := s.selectedNovel.value;
    var r := DeleteChapter(t, true);
    assert r.novels[k].chapters == s.novels[k].chapters;
    assert r.novels == s.novels;
  }

  /** Back is idempotent, and going back from a chapter just selected is the
      same as going back from where the user was. */
  lemma BackLaws(s: State, index: nat)
    ensures Back(Back(s)) == Back(s)
    ensures Back(SelectChapter(s, index)) == Back(s)
    ensures Back(SelectNovel(s, index)) == SelectNovel(s, index)
  {
  }

  // ---------------------------------------------------------------------------
  // Runs of user actions.

  /** A user action together with the dialog answer it receives. */
  datatype Action =
    | ClickNovel(index: nat)
    | ClickChapter(index: nat)
    | ClickDeleteNovel(index: nat, confirmed: bool)
    | ClickDeleteChapter(confirmed: bool)
    | SaveChapter(number: string, title: string, content: string)
    | ClickNewNovel(answer: Option<string>)
    | ClickBack

  /** The control for `a` can be on screen in state `s` on the wide layout:
      novel rows exist for every novel, chapter rows for the selected novel's
      chapters, the add-chapter form under a selected novel while no chapter is
      selected (the read-only view replaces it), and the back and
      delete-chapter buttons in the read-only view of an existing chapter. */
  predicate Enabled(s: State, a: Action): (r: bool)
    ensures r && a.ClickDeleteNovel? ==> a.index < |s.novels|
    ensures r && a.ClickDeleteChapter? ==> SelectionInRange(s) && SelectedChapter(s).Some?
    ensures r && a.SaveChapter? ==> NovelSelected(s) && s.selectedChapter.None?
    ensures r && a.ClickChapter? ==>
      (SelectedNovel(s).Some? && a.index < |SelectedNovel(s).value.chapters|)
  {
    match a
    case ClickNovel(i) => i < |s.novels|
    case ClickChapter(i) => NovelSelected(s) && i < |s.novels[s.selectedNovel.value].chapters|
    case ClickDeleteNovel(i, _) => i < |s.novels|
    case ClickDeleteChapter(_) => SelectedChapter(s).Some?
    case SaveChapter(_, _, _) => NovelSelected(s) && s.selectedChapter.None?
    case ClickNewNovel(_) => true
    case ClickBack => SelectedChapter(s).Some?
  }

  function Apply(s: State, a: Action): State
    requires Enabled(s, a)
  {
    match a
    case ClickNovel(i) => SelectNovel(s, i)
    case ClickChapter(i) => SelectChapter(s, i)
    case ClickDeleteNovel(i, ok) => DeleteNovel(s, i, ok).state
    case ClickDeleteChapter(ok) => DeleteChapter(s, ok)
    case SaveChapter(n, t, c) => AddChapter(s, n, t, c).state
    case ClickNewNovel(answer) => AddNovel(s, answer)
    case ClickBack => Back(s)
  }

  /** The state after `acts`, or `None` if some action's control is not on
      screen when its turn comes. */
  function Run(s: State, acts: seq<Action>): Option<State>
    decreases |acts|
  {
    if acts == [] then Some(s)
    else if !Enabled(s, acts[0]) then None
    else Run(Apply(s, acts[0]), acts[1..])
  }

  /** Every action whose control is on screen keeps the invariant. */
  lemma ApplyKeepsValid(s: State, a: Action)
    requires Valid(s) && Enabled(s, a)
    ensures Valid(Apply(s, a))
  {
  }

  /** Every state the user can reach from a valid one is valid; in particular
      the read-only view never meets a dangling selection. */
  lemma {:induction false} RunKeepsValid(s: State, acts: seq<Action>)
    requires Valid(s)
    ensures Run(s, acts).Some? ==> Valid(Run(s, acts).value)
    decreases |acts|
  {
    if acts != [] && Enabled(s, acts[0]) {
      ApplyKeepsValid(s, acts[0]);
      RunKeepsValid(Apply(s, acts[0]), acts[1..]);
    }
  }

  /** From start-up every reachable state is valid. */
  lemma ReachableIsValid(acts: seq<Action>)
    ensures Run(Initial, acts).Some? ==> Valid(Run(Initial, acts).value)
  {
    RunKeepsValid(Initial, acts);
  }
}

=== FILE: scenarios.dfy ===
/** Concrete user sessions, each run through the model from start-up. */
module Scenarios {
  import opened Wrappers
  import opened Text
  import opened Store
  import opened Actions
  import opened Views

  // Each typed-in word of the sessions below carries no white space, so
  // trimming leaves it alone; one lemma per word keeps each proof small.

  lemma AlphaIsTrimmed() ensures Trim("Alpha") == "Alpha" { TrimUnpadded("Alpha"); }
  lemma BetaIsTrimmed() ensures Trim("Beta") == "Beta" { TrimUnpadded("Beta"); }
  lemma OneIsTrimmed() ensures Trim("1") == "1" { TrimUnpadded("1"); }
  lemma StartIsTrimmed() ensures Trim("Start") == "Start" { TrimUnpadded("Start"); }
  lemma HelloIsTrimmed() ensures Trim("Hello") == "Hello" { TrimUnpadded("Hello"); }

  /** The new-novel prompt answered "Alpha" from start-up. */
  lemma AlphaAdded()
    ensures AddNovel(Initial, Some("Alpha")) == State([Novel("Alpha", [])], Some(0), None)
  {
    AlphaIsTrimmed();
    assert NewNovelName("Alpha") == "Alpha";
  }

  /** The new-novel prompt answered "Beta" from start-up. */
  lemma BetaAdded()
    ensures AddNovel(Initial, Some("Beta")) == State([Novel("Beta", [])], Some(0), None)
  {
    BetaIsTrimmed();
    assert NewNovelName("Beta") == "Beta";
  }

  /** Saving an entry that is not blank into a lone novel with no chapters
      appends the trimmed chapter and selects it. */
  lemma SaveIntoEmptyNovel(name: string, number: string, title: string, content: string)
    requires !BlankEntry(number, title, content)
    ensures var c := Chapter(Trim(number), Trim(title), Trim(content));
      AddChapter(State([Novel(name, [])], Some(0), None), number, title, content)
        == Step(State([Novel(name, [c])], Some(0), Some(0)), None)
  {
    var c := Chapter(Trim(number), Trim(title), Trim(content));
    assert [] + [c] == [c];
    assert [Novel(name, [])][0 := Novel(name, [c])] == [Novel(name, [c])];
  }

  /** Saving chapter "1" / "Start" / "Hello" into the freshly added "Alpha". */
  lemma AlphaChapterSaved()
    ensures var c := Chapter("1", "Start", "Hello");
      AddChapter(State([Novel("Alpha", [])], Some(0), None), "1", "Start", "Hello")
        == Step(State([Novel("Alpha", [c])], Some(0), Some(0)), None)
  {
    OneIsTrimmed();
    StartIsTrimmed();
    HelloIsTrimmed();
    SaveIntoEmptyNovel("Alpha", "1", "Start", "Hello");
  }

  /** A novel without chapters is subtitled "0 chapters". */
  lemma ZeroChaptersLabel()
    ensures CountLabel(0) == "0 chapters"
  {
    assert Decimal(0) == "0";
  }

  /** The read-only view of the "Alpha" session's first chapter. */
  lemma AlphaView()
    ensures var c := Chapter("1", "Start", "Hello");
      ReadOnlyView(State([Novel("Alpha", [c])], Some(0), Some(0)), false)
        == Some(ChapterView("Novel: Alpha", "Chapter 1", Some("Start"), "Hello"))
  {
    AlphaChapterLabels();
    assert NovelShortName(Novel("Alpha", [Chapter("1", "Start", "Hello")])) == "Alpha";
    assert "Novel: " + "Alpha" == "Novel: Alpha";
  }

  /** The first chapter of the "Alpha" session as the view displays it. */
  lemma AlphaChapterLabels()
    ensures var c := Chapter("1", "Start", "Hello");
      NumberLine(c, 0) == "Chapter 1" && ChapterHeading(c, 0) == "Chapter 1: Start"
  {
  }

  /** New novel "Alpha", save chapter "1" / "Start" / "Hello", and the
      read-only view shows "Chapter 1", the title "Start" and the body "Hello";
      the chapter list heads it "Chapter 1: Start". */
  lemma AlphaSession()
    ensures var s1 := AddNovel(Initial, Some("Alpha"));
      var s2 := AddChapter(s1, "1", "Start", "Hello");
      && s2.notice == None
      && ReadOnlyView(s2.state, false)
           == Some(ChapterView("Novel: Alpha", "Chapter 1", Some("Start"), "Hello"))
      && ChapterHeading(s2.state.novels[0].chapters[0], 0) == "Chapter 1: Start"
  {
    AlphaAdded();
    AlphaChapterSaved();
    AlphaChapterLabels();
    AlphaView();
  }

  /** New novel "Beta": it is selected, has no chapters, and its subtitle in the
      novel list reads "0 chapters". */
  lemma BetaSession()
    ensures var s := AddNovel(Initial, Some("Beta"));
      && SelectedNovel(s) == Some(Novel("Beta", []))
      && NovelSubtitle(s.novels[0]) == "0 chapters"
  {
    BetaAdded();
    ZeroChaptersLabel();
  }

  /** Deleting the only novel after confirming empties the list, clears the
      selection and shows the deletion notice. */
  lemma DeleteOnlyNovelSession(name: Option<string>)
    requires name.Some?
    ensures DeleteNovel(AddNovel(Initial, name), 0, true) == Step(Initial, Some(NovelDeleted))
  {
  }

  /** A chapter entry of blank fields is refused with an alert in any state. */
  lemma BlankChapterRefused(s: State)
    ensures AddChapter(s, "", " \t", "\n") == Step(s, Some(MissingChapterInfo))
  {
    assert AllSpace(" \t") && AllSpace("\n");
  }
}

=== FILE: store.dfy ===
/** The in-memory data of the note manager: the novel/chapter tree and the
    two selection indices, as they stand between user actions. */
module Store {
  import opened Wrappers

  /** A chapter as stored; a field absent from stored data reads as "". */
  datatype Chapter = Chapter(number: string, title: string, content: string)

  /** A novel owns its chapters; a chapter's identity is its position. */
  datatype Novel = Novel(name: string, chapters: seq<Chapter>)

  /** The root aggregate plus the view controller's two selection indices;
      `None` is JavaScript's `null`. */
  datatype State = State(
    novels: seq<Novel>,
    selectedNovel: Option<nat>,
    selectedChapter: Option<nat>)

  /** The name a novel gets when none is given, and the one the novel list
      shows for a novel whose name is empty. */
  const DefaultNovelName := "Untitled Novel"

  /** The state at start-up when nothing has been stored yet. */
  const Initial := State([], None, None)

  /** `xs.splice(i, 1)`: the element at `i` is gone, those before it keep their
      positions and those after it move down by one. */
  function RemoveAt<T>(xs: seq<T>, i: nat): (r: seq<T>)
    requires i < |xs|
    ensures |r| == |xs| - 1
    ensures forall j :: 0 <= j < i ==> r[j] == xs[j]
    ensures forall j :: i <= j < |r| ==> r[j] == xs[j + 1]
    ensures multiset(r) + multiset{xs[i]} == multiset(xs)
  {
    assert xs == xs[..i] + [xs[i]] + xs[i + 1..];
    xs[..i] + xs[i + 1..]
  }

  /** A novel is selected and its index is in range. */
  predicate NovelSelected(s: State) {
    s.selectedNovel.Some? && s.selectedNovel.value < |s.novels|
  }

  /** Whenever both indices are set they name an existing chapter. */
  predicate SelectionInRange(s: State) {
    s.selectedNovel.Some? && s.selectedChapter.Some? ==>
      && s.selectedNovel.value < |s.novels|
      && s.selectedChapter.value < |s.novels[s.selectedNovel.value].chapters|
  }

  /** The invariant the user actions keep: a set novel index is in range, and a
      chapter index is set only under a selected novel and is in range. */
  predicate Valid(s: State) {
    && (s.selectedNovel.Some? ==> s.selectedNovel.value < |s.novels|)
    && (s.selectedChapter.Some? ==> s.selectedNovel.Some?)
    && SelectionInRange(s)
  }

  /** The novel the selection refers to, if any. */
  function SelectedNovel(s: State): (r: Option<Novel>)
    ensures r.Some? <==> NovelSelected(s)
    ensures r.Some? ==> r.value in s.novels
    ensures r.Some? ==> r.value == s.novels[s.selectedNovel.value]
  {
    if NovelSelected(s) then Some(s.novels[s.selectedNovel.value]) else None
  }

  /** The chapter the selection refers to, if both indices are set and in range. */
  function SelectedChapter(s: State): (r: Option<Chapter>)
    ensures r.Some? ==> SelectedNovel(s).Some? && r.value in SelectedNovel(s).value.chapters
    ensures Valid(s) ==> (r.Some? <==> s.selectedChapter.Some?)
    ensures r.Some? ==>
      && s.selectedChapter.Some?
      && s.selectedChapter.value < |SelectedNovel(s).value.chapters|
      && r.value == SelectedNovel(s).value.chapters[s.selectedChapter.value]
  {
    if NovelSelected(s) && s.selectedChapter.Some?
      && s.selectedChapter.value < |s.novels[s.selectedNovel.value].chapters|
    then Some(s.novels[s.selectedNovel.value].chapters[s.selectedChapter.value])
    else None
  }
}

=== FILE: text.dfy ===
/** String helpers the application relies on: `String.prototype.trim` and the
    decimal rendering of a number concatenated into a label. */
module Text {

  /** The code points ECMAScript's `trim` removes: the WhiteSpace class
      (tab, vertical tab, form feed, space, no-break space, byte-order mark and
      the Unicode space separators) and the LineTerminator class. */
  predicate IsSpace(c: char) {
    || c == '\t' || c == '\n' || c == '\U{000B}' || c == '\U{000C}' || c == '\r'
    || c == ' ' || c == '\U{00A0}' || c == '\U{1680}'
    || ('\U{2000}' <= c <= '\U{200A}')
    || c == '\U{2028}' || c == '\U{2029}' || c == '\U{202F}' || c == '\U{205F}'
    || c == '\U{3000}' || c == '\U{FEFF}'
  }

  /** Every character of `s` is white space (vacuously true of ""). */
  predicate AllSpace(s: string) {
    forall i :: 0 <= i < |s| ==> IsSpace(s[i])
  }

  /** The number of white-space characters `s` begins with. */
  function LeadingSpaces(s: string): (k: nat)
    ensures k <= |s|
    ensures forall i :: 0 <= i < k ==> IsSpace(s[i])
    ensures k < |s| ==> !IsSpace(s[k])
  {
    if |s| == 0 || !IsSpace(s[0]) then 0 else 1 + LeadingSpaces(s[1..])
  }

  /** The number of white-space characters `s` ends with. */
  function TrailingSpaces(s: string): (k: nat)
    ensures k <= |s|
    ensures forall i :: |s| - k <= i < |s| ==> IsSpace(s[i])
    ensures k < |s| ==> !IsSpace(s[|s| - 1 - k])
  {
    if |s| == 0 || !IsSpace(s[|s| - 1]) then 0 else 1 + TrailingSpaces(s[..|s| - 1])
  }

  /** `s.trim()`: the slice of `s` starting after its leading white space that
      neither begins nor ends with white space, with only white space cut from
      either side; it is empty exactly when `s` is all white space. */
  function Trim(s: string): (r: string)
    ensures var a := LeadingSpaces(s);
      && a + |r| <= |s|
      && r == s[a..a + |r|]
      && forall i :: a + |r| <= i < |s| ==> IsSpace(s[i])
    ensures r == [] || (!IsSpace(r[0]) && !IsSpace(r[|r| - 1]))
    ensures r == [] <==> AllSpace(s)
  {
    var t := s[LeadingSpaces(s)..];
    t[..|t| - TrailingSpaces(t)]
  }

  /** A string with no white space at either end is its own trim. */
  lemma TrimUnpadded(s: string)
    requires s == [] || (!IsSpace(s[0]) && !IsSpace(s[|s| - 1]))
    ensures Trim(s) == s
  {
    if s != [] {
      assert LeadingSpaces(s) == 0;
      assert TrailingSpaces(s) == 0;
    }
  }

  /** A trimmed string is already trimmed. */
  lemma TrimIdempotent(s: string)
    ensures Trim(Trim(s)) == Trim(s)
  {
    TrimUnpadded(Trim(s));
  }

  predicate IsDigit(c: char) {
    '0' <= c <= '9'
  }

  predicate AllDigits(s: string) {
    forall i :: 0 <= i < |s| ==> IsDigit(s[i])
  }

  function DigitChar(d: nat): (c: char)
    requires d < 10
    ensures IsDigit(c) && c as int - '0' as int == d
  {
    ('0' as int + d) as char
  }

  /** The value of a string of decimal digits, most significant first. */
  function DigitsValue(s: string): nat
    requires AllDigits(s)
  {
    if s == [] then 0
    else DigitsValue(s[..|s| - 1]) * 10 + (s[|s| - 1] as int - '0' as int)
  }

  /** JavaScript's conversion of a non-negative integer to a string when it is
      concatenated: shortest decimal digits, no sign, no leading zero. */
  function Decimal(n: nat): (r: string)
    ensures |r| >= 1 && AllDigits(r)
    ensures r[0] == '0' ==> n == 0
    decreases n
  {
    if n < 10 then [DigitChar(n)] else Decimal(n / 10) + [DigitChar(n % 10)]
  }

  /** Reading the digits back gives the number that was written. */
  lemma {:induction false} DecimalRoundTrip(n: nat)
    ensures DigitsValue(Decimal(n)) == n
    decreases n
  {
    var r := Decimal(n);
    if n >= 10 {
      DecimalRoundTrip(n / 10);
      assert r[..|r| - 1] == Decimal(n / 10);
    }
  }

  /** Distinct numbers render as distinct strings. */
  lemma DecimalInjective(m: nat, n: nat)
    ensures Decimal(m) == Decimal(n) ==> m == n
  {
    DecimalRoundTrip(m);
    DecimalRoundTrip(n);
  }
}

=== FILE: views.dfy ===
/** The pure pieces of rendering: the labels built from novels and chapters,
    the confirmation prompts, and the read-only chapter view with its guard. */
module Views {
  import opened Wrappers
  import opened Text
  import opened Store
  import opened Actions

  /** A novel's name in the novel list, falling back when empty. */
  function NovelListName(n: Novel): (r: string)
    ensures r != []
    ensures n.name != [] ==> r == n.name
    ensures n.name == [] ==> r == DefaultNovelName
  {
    if n.name != [] then n.name else DefaultNovelName
  }

  /** The shorter fallback used in headers and prompts. */
  const ShortDefaultName := "Untitled"

  /** A novel's name in headers and prompts, with the shorter fallback. */
  function NovelShortName(n: Novel): (r: string)
    ensures r != []
    ensures n.name != [] ==> r == n.name
    ensures n.name == [] ==> r == ShortDefaultName
  {
    if n.name != [] then n.name else ShortDefaultName
  }

  /** The chapter number shown for the chapter at position `idx`: its own
      number, or its 1-based position written in decimal when that is empty. */
  function ChapterNumberText(c: Chapter, idx: nat): (r: string)
    ensures r != []
    ensures c.number != [] ==> r == c.number
    ensures c.number == [] ==> r == Decimal(idx + 1) && r[0] != '0'
    ensures c.number == [] ==> AllDigits(r) && DigitsValue(r) == idx + 1
  {
    if c.number != [] then c.number
    else
      DecimalRoundTrip(idx + 1);
      Decimal(idx + 1)
  }

  /** The number line of the read-only view: "Chapter " and then the chapter's
      own number, or its 1-based position in decimal when it has none. */
  function NumberLine(c: Chapter, idx: nat): (r: string)
    ensures |r| > 8 && r[..8] == "Chapter "
    ensures c.number != [] ==> r[8..] == c.number
    ensures c.number == [] ==> r[8..] == Decimal(idx + 1) && r[8] != '0'
    ensures c.number == [] ==> AllDigits(r[8..]) && DigitsValue(r[8..]) == idx + 1
  {
    "Chapter " + ChapterNumberText(c, idx)
  }

  /** A chapter's heading in the chapter list and on the narrow-layout cards:
      the number line, followed by ": <title>" when there is a title. */
  function ChapterHeading(c: Chapter, idx: nat): string {
    NumberLine(c, idx) + (if c.title != [] then ": " + c.title else "")
  }

  /** The label the delete-chapter confirmation names: the title, or the number
      line when the title is empty. */
  function DeleteChapterLabel(c: Chapter, idx: nat): string {
    if c.title != [] then c.title else NumberLine(c, idx)
  }

  /** The heading always begins with the number line, is exactly the number
      line when the chapter has no title, and otherwise continues with ": " and
      the title. */
  lemma HeadingExtendsNumberLine(c: Chapter, idx: nat)
    ensures var h, n := ChapterHeading(c, idx), NumberLine(c, idx);
      && |n| <= |h| && h[..|n|] == n && (h == n <==> c.title == [])
      && (c.title != [] ==>
            |h| == |n| + 2 + |c.title| && h[|n|..|n| + 2] == ": " && h[|n| + 2..] == c.title)
  {
  }

  /** The delete confirmation names something the user can see: a non-empty
      tail of the chapter's heading, the title when there is one and the whole
      number line otherwise. */
  lemma DeleteLabelEndsHeading(c: Chapter, idx: nat)
    ensures var h, l := ChapterHeading(c, idx), DeleteChapterLabel(c, idx);
      && l != [] && |l| <= |h| && h[|h| - |l|..] == l
      && (c.title != [] ==> l == c.title)
      && (c.title == [] ==> l == h == NumberLine(c, idx))
  {
  }

  /** The text of a delete confirmation naming `subject`. */
  function ConfirmPrompt(subject: string): (r: string)
    ensures |r| == |subject| + 10
    ensures r[..8] == "Delete \""
    ensures r[8..8 + |subject|] == subject
    ensures r[8 + |subject|..] == "\"?"
  {
    "Delete \"" + subject + "\"?"
  }

  /** The confirmation shown before deleting novel `index`. */
  function DeleteNovelPrompt(s: State, index: nat): (r: string)
    requires index < |s.novels|
    ensures |r| >= 10 && r[..8] == "Delete \"" && r[|r| - 2..] == "\"?"
    ensures var name := s.novels[index].name;
      r[8..|r| - 2] == (if name != [] then name else ShortDefaultName)
  {
    ConfirmPrompt(NovelShortName(s.novels[index]))
  }

  /** The confirmation shown before deleting the selected chapter; none when the
      action returns early for lack of a selection. */
  function DeleteChapterPrompt(s: State): (r: Option<string>)
    requires SelectionInRange(s)
    ensures r.Some? <==> s.selectedNovel.Some? && s.selectedChapter.Some?
    ensures r.Some? ==>
      && |r.value| >= 10 && r.value[..8] == "Delete \"" && r.value[|r.value| - 2..] == "\"?"
      && r.value[8..|r.value| - 2]
           == DeleteChapterLabel(SelectedChapter(s).value, s.selectedChapter.value)
    ensures r.Some? && SelectedChapter(s).value.title != [] ==>
      var t := SelectedChapter(s).value.title; |r.value| == |t| + 10 && r.value[8..8 + |t|] == t
  {
    if s.selectedNovel.None? || s.selectedChapter.None? then None
    else
      var c := s.novels[s.selectedNovel.value].chapters[s.selectedChapter.value];
      Some(ConfirmPrompt(DeleteChapterLabel(c, s.selectedChapter.value)))
  }

  /** The subtitle under a novel in the list: the count and "chapter" in the
      singular exactly when the count is one. */
  function CountLabel(n: nat): string {
    Decimal(n) + (if n == 1 then " chapter" else " chapters")
  }

  function NovelSubtitle(n: Novel): string {
    CountLabel(|n.chapters|)
  }

  /** The subtitle reads back as the novel's chapter count, and ends in the
      plural "s" exactly when that count is not one. */
  lemma {:induction false} SubtitleReadsBack(n: Novel)
    ensures var l, d := NovelSubtitle(n), Decimal(|n.chapters|);
      && |d| < |l| && l[..|d|] == d && l[|d|] == ' '
      && DigitsValue(d) == |n.chapters|
      && (l[|l| - 1] == 's' <==> |n.chapters| != 1)
  {
    DecimalRoundTrip(|n.chapters|);
  }

  /** Different counts never share a subtitle. */
  lemma {:induction false} CountLabelInjective(m: nat, n: nat)
    ensures CountLabel(m) == CountLabel(n) ==> m == n
  {
    var a, b := Decimal(m), Decimal(n);
    var l := CountLabel(m);
    if l == CountLabel(n) {
      assert l[|a|] == ' ' && l[|b|] == ' ';
      assert a == l[..|a|] == b;
      DecimalInjective(m, n);
    }
  }

  const ListSnippetWidth := 40
  const CardSnippetWidth := 50

  /** A preview of the content: its first `width` characters followed by an
      ellipsis, or "No content" when that prefix is empty. */
  function Snippet(content: string, width: nat): (r: string)
    ensures content != [] && width > 0 ==>
      && |r| - 1 == (if |content| < width then |content| else width)
      && r[|r| - 1] == '…'
      && |r| - 1 <= |content|
      && r[..|r| - 1] == content[..|r| - 1]
    ensures content == [] || width == 0 ==> r == "No content"
  {
    var prefix := content[..if |content| < width then |content| else width];
    if prefix != [] then prefix + "…" else "No content"
  }

  /** Only the first `width` characters of the content reach the preview:
      whatever follows them never changes it. */
  lemma SnippetSeesOnlyPrefix(content: string, rest: string, width: nat)
    requires width <= |content|
    ensures Snippet(content + rest, width) == Snippet(content, width)
  {
    assert (content + rest)[..width] == content[..width];
  }

  /** The preview under a chapter in the chapter list. */
  function ListPreview(c: Chapter): (r: string)
    ensures c.content == [] ==> r == "No content"
    ensures c.content != [] ==>
      && |r| == (if |c.content| < ListSnippetWidth then |c.content| else ListSnippetWidth) + 1
      && r[..|r| - 1] == c.content[..|r| - 1]
      && r[|r| - 1] == '…'
  {
    Snippet(c.content, ListSnippetWidth)
  }

  /** The preview on a chapter card of the narrow layout. */
  function CardPreview(c: Chapter): (r: string)
    ensures c.content == [] ==> r == "No content"
    ensures c.content != [] ==>
      && |r| == (if |c.content| < CardSnippetWidth then |c.content| else CardSnippetWidth) + 1
      && r[..|r| - 1] == c.content[..|r| - 1]
      && r[|r| - 1] == '…'
  {
    Snippet(c.content, CardSnippetWidth)
  }

  /** A card shows at least as much of the content as the list does, and the
      two previews agree on what they both show. */
  lemma CardPreviewExtendsListPreview(c: Chapter)
    requires c.content != []
    ensures var l, k := ListPreview(c), CardPreview(c);
      |l| <= |k| && l[..|l| - 1] == k[..|l| - 1]
  {
  }

  /** The guard of the read-only view: both indices set and naming an existing
      novel and chapter. */
  predicate CanShowChapter(s: State) {
    && s.selectedNovel.Some?
    && s.selectedChapter.Some?
    && s.selectedNovel.value < |s.novels|
    && s.selectedChapter.value < |s.novels[s.selectedNovel.value].chapters|
  }

  /** What the read-only view puts on screen. */
  datatype ChapterView = ChapterView(
    header: string,
    numberLine: string,
    title: Option<string>,
    body: string)

  /** The read-only chapter view, or `None` when its guard fails and it leaves
      the screen as it was. `narrow` is the layout flag fixed at start-up. */
  function ReadOnlyView(s: State, narrow: bool): (r: Option<ChapterView>)
    ensures r.Some? <==> SelectedChapter(s).Some?
    ensures r.Some? ==>
      var n, c, i := SelectedNovel(s).value, SelectedChapter(s).value, s.selectedChapter.value;
      && r.value.header == (if narrow then NovelShortName(n) else "Novel: " + NovelShortName(n))
      && r.value.numberLine == NumberLine(c, i)
      && (r.value.title.Some? <==> c.title != [])
      && (r.value.title.Some? ==> r.value.title.value == c.title)
      && (c.content != [] ==> r.value.body == c.content)
      && (c.content == [] ==> r.value.body == "[No content]")
  {
    if !CanShowChapter(s) then None
    else
      var n := s.novels[s.selectedNovel.value];
      var i := s.selectedChapter.value;
      var c := n.chapters[i];
      var name := NovelShortName(n);
      Some(ChapterView(
        if narrow then name else "Novel: " + name,
        NumberLine(c, i),
        if c.title != [] then Some(c.title) else None,
        if c.content != [] then c.content else "[No content]"))
  }

  /** In a valid state the read-only view shows whenever a chapter is selected. */
  lemma ValidSelectionIsShown(s: State, narrow: bool)
    requires Valid(s)
    ensures ReadOnlyView(s, narrow).Some? <==> s.selectedChapter.Some?
  {
  }

  /** After a chapter is saved the read-only view shows it, trimmed, with its
      position as the number when no number was entered. */
  lemma SavedChapterIsShown(s: State, number: string, title: string, content: string, narrow: bool)
    requires NovelSelected(s) && !BlankEntry(number, title, content)
    ensures var v := ReadOnlyView(AddChapter(s, number, title, content).state, narrow);
      var pos := |s.novels[s.selectedNovel.value].chapters| + 1;
      && v.Some?
      && v.value.numberLine ==
           "Chapter " + (if AllSpace(number) then Decimal(pos) else Trim(number))
      && (v.value.title.Some? <==> !AllSpace(title))
      && (v.value.title.Some? ==> v.value.title.value == Trim(title))
      && (!AllSpace(content) ==> v.value.body == Trim(content))
      && (AllSpace(content) ==> v.value.body == "[No content]")
  {
  }

  /** Back and a confirmed chapter deletion both leave the read-only view. */
  lemma LeavingReadOnlyView(s: State, narrow: bool)
    requires SelectionInRange(s)
    ensures ReadOnlyView(Back(s), narrow) == None
    ensures s.selectedNovel.Some? && s.selectedChapter.Some? ==>
      ReadOnlyView(DeleteChapter(s, true), narrow) == None
  {
  }
}

=== FILE: wrappers.dfy ===
/** Option stands in for JavaScript's `null` wherever the application stores
    "nothing selected" or receives a cancelled prompt. */
module Wrappers {

  datatype Option<+T> = None | Some(value: T)
}
